=== FILE: README.md ===
# Dark channel and atmospheric light

A Dafny model of the numeric core of a single-image haze-removal pipeline built
on the dark channel prior:

- `dark_channel(im, patch)` takes an image of shape (M, N, 3). For every pixel
  it returns the smallest sample over all channels of a `patch` by `patch`
  window centred on the pixel and clipped to the image. It rejects an even
  patch.
- `atmosphere_light(im, dc, p)` and `get_atmosphere(I, darkch, p)` estimate the
  airlight. Both keep the `int(M * N * p)` pixels whose dark-channel values are
  largest and return the per-channel maximum of their samples. They differ
  only in how they obtain the descending order and how they take the maximum.

The model is organised by concept:

- `Outcomes` holds the errors the source raises.
- `Images` holds images, maps and numpy's row-major flattening.
- `DarkChannels` holds the dark channel: Python's slice arithmetic, the window
  minimum, the nested loops, and a pointwise reference definition
  `DarkChannelOf`.
- `DarkChannelFacts` holds properties of the dark channel.
- `Airlight` holds the selection and the two airlight variants.
- `AirlightFacts` holds what the two variants share.

numpy's `argsort` is not modelled as an algorithm. Each variant takes its
order as a parameter and requires only that it is some valid argsort: a
permutation along which the keys do not decrease. Every property below
therefore holds however the sort breaks ties.

The model follows the code as written, including where it is more permissive than
a reader might expect:

- A negative odd patch is not rejected up front. Only `patch % 2 == 0` raises
  (`EvenPatch`), which rejects 0 and every even patch. A negative odd patch passes
  that test. On a non-empty image the Python slices of some window are then
  empty, and `np.min` raises (`EmptyMinimum`). On an image with no rows or no columns the loops never call
  `np.min`, so the result is the empty map.
- A fraction `p` that selects no pixel is not checked up front either. The two
  variants fail in different ways:
  - `atmosphere_light` indexes columns of an empty one-dimensional array
    (`TooManyIndices`).
  - `get_atmosphere` reduces an empty array (`EmptyMaximum`).
- A `p` outside `[0, 1]` is not rejected. `int(M * N * p)` is used as a Python
  slice bound, so a negative count drops entries from the end and a count above
  `M * N` keeps everything. `SelectedCount` models exactly that.
- The two airlight variants are both modelled. They are proved to agree on the
  same selected set, and to agree always when the dark channel has no ties.

## Model

| member | source | states |
|---|---|---|
| DarkChannels.DarkChannel | haze_functions.py:11-31 | Raises `EvenPatch` exactly when `patch % 2 == 0`. Raises `EmptyMinimum` exactly when the patch is odd and negative and the image is non-empty. Succeeds exactly in every other case, with an M by N map. For a positive odd patch that map equals the pointwise definition `DarkChannelOf`. |
| DarkChannels.WindowMins | haze_functions.py:22-30 | The nested loops succeed exactly when every window built from a row slice and a column slice is non-empty. On success every entry is the minimum over its window. |
| DarkChannels.DarkChannelRow | haze_functions.py:24-30 | With no columns, one pass of the inner loop always succeeds, because `np.min` is never called. When there are columns, it succeeds exactly when the row slice and every column slice are non-empty. On success the row has one entry per column, each the window minimum. |
| DarkChannels.HalfWidth | haze_functions.py:25-28 | For an odd patch, `int((patch - 1) / 2)` is exact: twice the half-width plus one is the patch. |
| Images.SliceBound | haze_functions.py:29 | A Python slice bound always lands in `0..len`. It is the bound itself when that is already in range. The same normalisation gives the length of `[:int(M * N * p)]` at lines 45 and 85. |
| DarkChannels.SliceSpan | haze_functions.py:25-29 | The slice `[max(k-h,0):min(k+h+1,len)]` after Python's normalisation ends within the axis. For a non-negative half-width it contains k. For a negative half-width it is empty whenever `k + h + 1` is not negative. |
| DarkChannels.SliceSpanIsClipped | haze_functions.py:25-29 | For a non-negative half-width, the slice `[max(k-h,0):min(k+h+1,len)]` is exactly the window of half-width h around k clipped to the axis. It always contains k. |
| DarkChannels.ClippedSpan | haze_functions.py:25-29 | The clipped window contains its centre, stays inside the axis and is at most `2h + 1` wide. |
| DarkChannels.NegativeHalfWidthEmptySpan | haze_functions.py:19-29 | With a negative half-width, some position of a non-empty axis has an empty slice, whatever Python does with the negative bounds. |
| DarkChannels.NegativeHalfWidthSlices | haze_functions.py:19-30 | A negative odd patch on a non-empty image always reaches a window with no samples, on which `np.min` raises. |
| DarkChannels.ValidPatchSlicesNonEmpty | haze_functions.py:23-29 | A positive odd patch never produces an empty window. |
| DarkChannels.WindowMin | haze_functions.py:29-30 | `np.min` of the window, reduced one row at a time; its meaning is stated by `WindowMinIsMin`. |
| DarkChannels.DarkChannelOf | haze_functions.py:22-31 | The pointwise dark channel has the height and width of the image; each entry's meaning is stated by `DarkChannelEntry`. |
| DarkChannels.WindowMinBelowRows | haze_functions.py:29-30 | The window minimum is at most the minimum of each row slice inside the window. |
| DarkChannels.WindowMinIsMin | haze_functions.py:29-30 | The row-by-row reduction of a window is `np.min` of it. It is at most every sample in the window and equal to one of them. |
| DarkChannels.DarkChannelEntry | haze_functions.py:25-30 | Every entry of the dark channel is the minimum sample over all three channels of its clipped window. |
| DarkChannels.FilledIsDarkChannel | haze_functions.py:22-31 | For a positive odd patch, the map the loops fill is the pointwise dark channel. |
| DarkChannelFacts.DarkChannelBounds | haze_functions.py:25-30 | Each entry is at most every channel of its own pixel and at least the smallest sample of the whole image. It equals some sample inside its window. |
| DarkChannelFacts.PatchOneIsPixelMin | haze_functions.py:25-30 | With patch 1 the dark channel is the per-pixel minimum over the channels. |
| DarkChannelFacts.LargerPatchIsDarker | haze_functions.py:25-30 | Growing a positive odd patch never raises an entry of the dark channel. |
| Images.Concat | haze_functions.py:43-44 | Row-major flattening (`flatten`, `ravel`, `reshape(M * N, ...)`); its layout is stated by `ConcatIndex` and `ConcatCover`. |
| Images.ConcatIndex | haze_functions.py:43-44 | Row-major flattening puts entry (i, j) of an m by n array at flat index `i * n + j`. The flat array has `m * n` entries. |
| Images.ConcatCover | haze_functions.py:43-44 | Every flat index comes from some entry (i, j) of the array. |
| Airlight.FlatPixels | haze_functions.py:44 | `im.reshape(M * N, 3)` has M * N rows of three samples each. |
| Airlight.FlatExtent | haze_functions.py:42-44 | The flattened dark channel and the flattened image have the same length. |
| Airlight.Truncate | haze_functions.py:45 | `int(x)` truncates toward zero: for non-negative x the result is the largest integer not above x, for negative x the smallest integer not below x. |
| Airlight.SelectedCount | haze_functions.py:45 | The number of indices kept never exceeds M * N. For p in [0, 1] it is the floor of M * N * p. For p >= 1 it is M * N. For p < 0, with d the floor of M * N * (-p), it is 0 when d is 0 and otherwise `max(M * N - d, 0)`: the slice drops d entries from the end. |
| Airlight.IsArgsort | haze_functions.py:45 | What `argsort()` may return: a permutation of the indices along which the keys do not decrease, ties in any order. |
| Airlight.Negate | haze_functions.py:85 | Negation keeps the length and reverses the order between any two keys. |
| Airlight.Reverse | haze_functions.py:45 | `[::-1]` keeps the length; what it does to the entries is stated by `ReverseInvolution`, `ReverseKeepsEntries` and `ReversedArgsortIsDescending`. |
| Airlight.ReverseInvolution | haze_functions.py:45 | Reversing twice gives back the original sequence. |
| Airlight.ReverseKeepsEntries | haze_functions.py:45 | The reversed sequence holds exactly the entries of the original. |
| Airlight.ReversedArgsortIsDescending | haze_functions.py:45 | Reversing any ascending argsort gives a descending order of the dark channel. |
| Airlight.NegatedArgsortIsDescending | haze_functions.py:85 | An ascending argsort of the negated dark channel is a descending order of the dark channel. |
| Airlight.DescendingPrefixIsTop | haze_functions.py:45 | Every prefix of a descending order is a top selection. Its indices are distinct and in range, and each selected value is at least every unselected value. |
| Airlight.SelectionByReversal | haze_functions.py:45 | `atmosphere_light` keeps exactly `SelectedCount` distinct indices, and they are the largest dark-channel values. |
| Airlight.SelectionByNegation | haze_functions.py:85 | `get_atmosphere` keeps exactly `SelectedCount` distinct indices, and they are the largest dark-channel values. |
| Airlight.Gather | haze_functions.py:47-48 | Gathering keeps one pixel per selected index (also `take` at line 87); that the maxima over the gathered pixels are the airlight of the selection is stated by `ChannelMaximaAreAirlight` and `ColumnMaxIsAirlight`. |
| Airlight.ChannelMax | haze_functions.py:52-54 | `np.max` of one column is at least every sample in that column and equal to one of them. |
| Airlight.ColumnMax | haze_functions.py:87 | `np.max(..., axis=0)` has three channels. Each channel is at least every row's sample and equal to some row's sample. |
| Airlight.PerChannelMax | haze_functions.py:52-56 | The three per-channel maxima form a pixel whose every channel is at least that channel of every input pixel and equal to it for some input pixel. |
| Airlight.ChannelMaximaAreAirlight | haze_functions.py:47-56 | The three separate column maxima of the gathered pixels are the airlight of the selection. |
| Airlight.ColumnMaxIsAirlight | haze_functions.py:87 | The single axis-0 maximum of the taken pixels is the airlight of the selection. |
| Airlight.AtmosphereLight | haze_functions.py:33-56 | Fails exactly when no pixel is selected, with `TooManyIndices`. Otherwise, per channel, the result is at least every selected pixel's sample and attained by one of them. |
| Airlight.GetAtmosphere | haze_functions.py:68-87 | Fails exactly when no pixel is selected, with `EmptyMaximum`. Otherwise, per channel, the result is at least every selected pixel's sample and attained by one of them. |
| AirlightFacts.AirlightDeterminedBySet | haze_functions.py:47-56 | The airlight depends only on the set of selected indices, not on their order. |
| AirlightFacts.VariantsAgreeOnSameSelection | haze_functions.py:33-87 | When both variants select the same set of pixels, both fail or both return the same airlight. |
| AirlightFacts.TopSelectionUniqueWithoutTies | haze_functions.py:45 | When no two dark-channel values are equal, two top selections of the same size hold the same indices. |
| AirlightFacts.VariantsAgreeWithoutTies | haze_functions.py:33-87 | Without ties in the dark channel, the two variants give the same result for every p and every valid sort order. |
| AirlightFacts.FullSelectionHoldsAll | haze_functions.py:45 | With p = 1 the selection of `atmosphere_light` holds every flat index. |
| AirlightFacts.FullSelectionHoldsAllNeg | haze_functions.py:85 | With p = 1 the selection of `get_atmosphere` holds every flat index. |
| AirlightFacts.FullSelectionIsGlobalMax | haze_functions.py:45-56 | With p = 1 on a non-empty image, `atmosphere_light` succeeds. Per channel, it returns the largest sample of the whole image. |
| AirlightFacts.FullSelectionIsGlobalMaxNeg | haze_functions.py:85-87 | With p = 1 on a non-empty image, `get_atmosphere` succeeds. Per channel, it returns the largest sample of the whole image. |

## Left out

- `transmission` (haze_functions.py:58-66) is not part of this model. It is `1 - omega * dark_channel(im / A, patch)`: it reruns the dark channel on a floating-point image divided by the airlight, so it fails exactly as `dark_channel` does (even patch, or a negative odd patch on a non-empty image), and otherwise scales the result. Float division and scaling are outside this integer model.
- `haze_remove` and `depth` (haze_functions.py:89-104) are not part of this model. They are branch-free floating-point array arithmetic (division, `log2`), and `haze_remove` never uses its `t0` argument.
- The imports (haze_functions.py:1-8) are left out; nothing is read, written or plotted in the modelled functions.
- Samples are unbounded integers. The source's float arrays, NaN and infinities are not modelled. Neither is the `np.zeros` float type of the dark channel.
- The fraction `p` is an exact real, and `int(M * N * p)` is truncation toward zero of the exact product. Rounding of the floating-point product, and a NaN or infinite `p`, are left out.
- numpy's `argsort` is a parameter constrained to be a valid ascending argsort. Which order numpy actually picks among equal values is not modelled.
- DarkChannels.DarkChannel: computes the half-width `int((patch - 1) / 2)` as exact integer division. In the source it goes through a float, so a patch too large for a float makes the division raise `OverflowError`; that error for astronomically large patches is not modelled.
- DarkChannels.DarkChannel: requires every pixel to have three channels, though `dark_channel` accepts any channel count. A non-3-D array that `np.shape` cannot unpack is outside the model.
- Airlight.AtmosphereLight: requires the image and the dark channel to have the same height and width. The source only needs `im.reshape(M * N, 3)` to succeed, so an image of another shape with the same number of samples is outside the model.
- Airlight.GetAtmosphere: requires the same matching extent as `AtmosphereLight`, for the same reason.
- The order in which the nested loops meet an empty window (which pixel raises first) is not modelled, only that the call raises.

=== FILE: airlight.dfy ===
/** Atmospheric-light estimation: keep the pixels whose dark-channel values are the
    largest, then take the per-channel maximum of their original samples. The
    source has two variants that differ only in how they obtain the descending
    order of the dark channel. */
module Airlight {
  import opened Outcomes
  import opened Images

  /** Python's `int(x)` on a float: truncation toward zero. */
  function Truncate(x: real): (n: int)
    ensures x >= 0.0 ==> n as real <= x < n as real + 1.0
    ensures x < 0.0 ==> n as real - 1.0 < x <= n as real
  {
    if x >= 0.0 then x.Floor else -((-x).Floor)
  }

  /** Where `n * p` lies for a fraction, a factor of at least one, and a negative `p`. */
  lemma FractionOfCount(n: nat, p: real)
    ensures 0.0 <= p <= 1.0 ==> 0.0 <= (n as real) * p <= n as real
    ensures p >= 1.0 ==> (n as real) * p >= n as real
    ensures p < 0.0 ==> (n as real) * p <= 0.0 && (n as real) * -p == -((n as real) * p)
  {
    if 0.0 <= p <= 1.0 {
      assert (n as real) - (n as real) * p == (n as real) * (1.0 - p);
    }
    if p >= 1.0 {
      assert (n as real) * p - (n as real) == (n as real) * (p - 1.0);
    }
  }

  /** The number of pixels both variants keep out of `n`: the length of the slice
      `[:int(M * N * p)]`. For a fraction `p` it is the floor of `n * p`. */
  function SelectedCount(n: nat, p: real): (k: nat)
    ensures k <= n
    ensures 0.0 <= p <= 1.0 ==> k == ((n as real) * p).Floor
    ensures p >= 1.0 ==> k == n
    ensures p < 0.0 ==> k == (var d := ((n as real) * -p).Floor; if d == 0 then 0 else Max(n - d, 0))
  {
    FractionOfCount(n, p);
    SliceBound(Truncate(n as real * p), n)
  }

  /** The dark channel, flattened row-major (`dc.flatten()`, `darkch.ravel()`). */
  function FlatDark(dc: Map2): seq<int>
  {
    Concat(dc)
  }

  /** The image as an (M * N, 3) array (`im.reshape(M * N, 3)`). */
  function FlatPixels(im: Image): (px: seq<Pixel>)
    requires IsImage(im)
    ensures |px| == |im| * Width(im)
    ensures forall f :: 0 <= f < |px| ==> |px[f]| == Channels
  {
    ConcatLength(im, Width(im));
    forall f | 0 <= f < |Concat(im)|
      ensures |Concat(im)[f]| == Channels
    {
      var i, j := ConcatCover(im, Width(im), f);
    }
    Concat(im)
  }

  /** The flattened dark channel lines up with the flattened image. */
  lemma FlatExtent(im: Image, dc: Map2)
    requires IsImage(im) && SameExtent(im, dc)
    ensures |FlatDark(dc)| == |FlatPixels(im)|
  {
    assert IsRect(dc, Width(im));
    ConcatLength(dc, Width(im));
  }

  /** `ord` lists each of the indices `0..n` exactly once. */
  predicate IsPermutation(ord: seq<int>, n: nat)
  {
    && |ord| == n
    && (forall a :: 0 <= a < n ==> 0 <= ord[a] < n)
    && (forall a, b :: 0 <= a < b < n ==> ord[a] != ord[b])
    && (forall y :: 0 <= y < n ==> y in ord)
  }

  /** `ord` is a result `key.argsort()` may return: a permutation of the indices
      of `key` along which `key` does not decrease. Ties come in any order, as
      numpy's default sort is not stable. */
  predicate IsArgsort(key: seq<int>, ord: seq<int>)
  {
    IsPermutation(ord, |key|) && forall a, b :: 0 <= a < b < |ord| ==> key[ord[a]] <= key[ord[b]]
  }

  /** A permutation of the indices along which `key` does not increase. */
  predicate IsDescending(key: seq<int>, ord: seq<int>)
  {
    IsPermutation(ord, |key|) && forall a, b :: 0 <= a < b < |ord| ==> key[ord[b]] <= key[ord[a]]
  }

  /** `-x` on an array. */
  function Negate(key: seq<int>): (r: seq<int>)
    ensures |r| == |key|
    ensures forall i, j :: 0 <= i < |key| && 0 <= j < |key| ==> (key[i] <= key[j] <==> r[j] <= r[i])
  {
    seq(|key|, i requires 0 <= i < |key| => -key[i])
  }

  /** `s[::-1]`. */
  function Reverse<T>(s: seq<T>): (r: seq<T>)
    ensures |r| == |s|
  {
    seq(|s|, i requires 0 <= i < |s| => s[|s| - 1 - i])
  }

  /** Reversing twice gives back the original sequence. */
  lemma ReverseInvolution<T>(s: seq<T>)
    ensures Reverse(Reverse(s)) == s
  {
    var r := Reverse(s);
    forall i | 0 <= i < |s|
      ensures Reverse(r)[i] == s[i]
    {
      assert Reverse(r)[i] == r[|s| - 1 - i];
    }
  }

  /** Reversing keeps exactly the same entries. */
  lemma ReverseKeepsEntries<T>(s: seq<T>)
    ensures forall x :: x in Reverse(s) <==> x in s
  {
    var r := Reverse(s);
    forall x | x in s
      ensures x in r
    {
      var i :| 0 <= i < |s| && s[i] == x;
      assert r[|s| - 1 - i] == x;
    }
  }

  /** `sel` holds distinct indices of `key`, and the key at every selected index is
      at least the key at every index left out: the top `|sel|` entries. */
  predicate IsTopSelection(key: seq<int>, sel: seq<int>)
  {
    && (forall a :: 0 <= a < |sel| ==> 0 <= sel[a] < |key|)
    && (forall a, b :: 0 <= a < b < |sel| ==> sel[a] != sel[b])
    && (forall a, y :: 0 <= a < |sel| && 0 <= y < |key| && y !in sel ==> key[y] <= key[sel[a]])
  }

  /** Reversing an ascending argsort gives a descending order. */
  lemma ReversedArgsortIsDescending(key: seq<int>, asc: seq<int>)
    requires IsArgsort(key, asc)
    ensures IsDescending(key, Reverse(asc))
  {
    var n, desc := |asc|, Reverse(asc);
    forall y | 0 <= y < n
      ensures y in desc
    {
      assert y in asc;
      var a :| 0 <= a < n && asc[a] == y;
      assert desc[n - 1 - a] == y;
    }
  }

  /** An ascending argsort of the negated keys is a descending order of the keys. */
  lemma NegatedArgsortIsDescending(key: seq<int>, ord: seq<int>)
    requires IsArgsort(Negate(key), ord)
    ensures IsDescending(key, ord)
  {
    forall a, b | 0 <= a < b < |ord|
      ensures key[ord[b]] <= key[ord[a]]
    {
      assert Negate(key)[ord[a]] <= Negate(key)[ord[b]];
    }
  }

  /** Every prefix of a descending order is a top selection. */
  lemma {:induction false} DescendingPrefixIsTop(key: seq<int>, ord: seq<int>, k: nat)
    requires IsDescending(key, ord) && k <= |ord|
    ensures IsTopSelection(key, ord[..k])
  {
    var sel := ord[..k];
    forall a, y | 0 <= a < |sel| && 0 <= y < |key| && y !in sel
      ensures key[y] <= key[sel[a]]
    {
      assert y in ord;
      var b :| 0 <= b < |ord| && ord[b] == y;
      assert forall b' :: 0 <= b' < k ==> ord[b'] == sel[b'];
      assert b >= k;
    }
  }

  /** The indices `atmosphere_light` keeps: `onedc.argsort()[::-1][:int(M * N * p)]`. */
  function SelectionByReversal(key: seq<int>, asc: seq<int>, p: real): (sel: seq<int>)
    requires IsArgsort(key, asc)
    ensures |sel| == SelectedCount(|key|, p)
    ensures IsTopSelection(key, sel)
  {
    ReversedArgsortIsDescending(key, asc);
    DescendingPrefixIsTop(key, Reverse(asc), SelectedCount(|key|, p));
    Reverse(asc)[..SelectedCount(|key|, p)]
  }

  /** The indices `get_atmosphere` keeps: `(-flatdark).argsort()[:int(M * N * p)]`. */
  function SelectionByNegation(key: seq<int>, desc: seq<int>, p: real): (sel: seq<int>)
    requires IsArgsort(Negate(key), desc)
    ensures |sel| == SelectedCount(|key|, p)
    ensures IsTopSelection(key, sel)
  {
    NegatedArgsortIsDescending(key, desc);
    DescendingPrefixIsTop(key, desc, SelectedCount(|key|, p));
    desc[..SelectedCount(|key|, p)]
  }

  /** The pixels at the selected flat indices, in selection order
      (`onedim[k]` appended for each `k`, or `flatI.take(searchidx, axis=0)`). */
  function Gather(px: seq<Pixel>, sel: seq<int>): (g: seq<Pixel>)
    requires forall a :: 0 <= a < |sel| ==> 0 <= sel[a] < |px|
    ensures |g| == |sel|
  {
    seq(|sel|, a requires 0 <= a < |sel| => px[sel[a]])
  }

  /** The largest channel-`c` sample among `px` (`np.max(array_pixels[:, c])`). */
  function ChannelMax(px: seq<Pixel>, c: nat): (m: int)
    requires |px| > 0
    requires forall t :: 0 <= t < |px| ==> c < |px[t]|
    ensures forall t :: 0 <= t < |px| ==> px[t][c] <= m
    ensures exists t :: 0 <= t < |px| && px[t][c] == m
  {
    var last := px[|px| - 1][c];
    if |px| == 1 then last
    else
      var m0 := ChannelMax(px[..|px| - 1], c);
      assert forall t :: 0 <= t < |px| - 1 ==> px[..|px| - 1][t] == px[t];
      Max(m0, last)
  }

  /** Channel-wise maximum of two pixels. */
  function PairMax(a: Pixel, b: Pixel): (m: Pixel)
    requires |a| == |b| == Channels
    ensures |m| == Channels
  {
    seq(Channels, c requires 0 <= c < Channels => Max(a[c], b[c]))
  }

  /** `np.max(rows, axis=0)`: the channel-wise maximum over all rows, reduced one
      row at a time. */
  function ColumnMax(rows: seq<Pixel>): (m: Pixel)
    requires |rows| > 0
    requires forall t :: 0 <= t < |rows| ==> |rows[t]| == Channels
    ensures |m| == Channels
    ensures forall c, t :: 0 <= c < Channels && 0 <= t < |rows| ==> rows[t][c] <= m[c]
    ensures forall c :: 0 <= c < Channels ==> exists t :: 0 <= t < |rows| && rows[t][c] == m[c]
  {
    var last := rows[|rows| - 1];
    if |rows| == 1 then last
    else
      var m0 := ColumnMax(rows[..|rows| - 1]);
      assert forall t :: 0 <= t < |rows| - 1 ==> rows[..|rows| - 1][t] == rows[t];
      PairMax(m0, last)
  }

  /** `a` is the airlight of the selection: per channel, the largest sample among
      the pixels of `px` at the indices `sel`. */
  ghost predicate IsAirlightOf(px: seq<Pixel>, sel: seq<int>, a: Pixel)
    requires forall f :: 0 <= f < |px| ==> |px[f]| == Channels
    requires forall t :: 0 <= t < |sel| ==> 0 <= sel[t] < |px|
  {
    && |a| == Channels
    && (forall c, t :: 0 <= c < Channels && 0 <= t < |sel| ==> px[sel[t]][c] <= a[c])
    && (forall c :: 0 <= c < Channels ==> exists t :: 0 <= t < |sel| && px[sel[t]][c] == a[c])
  }

  /** Taking the three channel maxima of the gathered pixels one by one yields the
      airlight of the selection. */
  lemma ChannelMaximaAreAirlight(px: seq<Pixel>, sel: seq<int>)
    requires forall f :: 0 <= f < |px| ==> |px[f]| == Channels
    requires forall t :: 0 <= t < |sel| ==> 0 <= sel[t] < |px|
    requires |sel| > 0
    ensures IsAirlightOf(px, sel, PerChannelMax(Gather(px, sel)))
  {
    var g := Gather(px, sel);
    var a := PerChannelMax(g);
    forall c, t | 0 <= c < Channels && 0 <= t < |sel|
      ensures px[sel[t]][c] <= a[c]
    {
      assert g[t] == px[sel[t]];
    }
    forall c | 0 <= c < Channels
      ensures exists t :: 0 <= t < |sel| && px[sel[t]][c] == a[c]
    {
      var t :| 0 <= t < |g| && g[t][c] == ChannelMax(g, c);
      assert px[sel[t]][c] == a[c];
    }
  }

  /** A single reduction along axis 0 of the gathered pixels also yields the
      airlight of the selection. */
  lemma ColumnMaxIsAirlight(px: seq<Pixel>, sel: seq<int>)
    requires forall f :: 0 <= f < |px| ==> |px[f]| == Channels
    requires forall t :: 0 <= t < |sel| ==> 0 <= sel[t] < |px|
    requires |sel| > 0
    ensures IsAirlightOf(px, sel, ColumnMax(Gather(px, sel)))
  {
    var g := Gather(px, sel);
    var a := ColumnMax(g);
    forall c, t | 0 <= c < Channels && 0 <= t < |sel|
      ensures px[sel[t]][c] <= a[c]
    {
      assert g[t] == px[sel[t]];
    }
    forall c | 0 <= c < Channels
      ensures exists t :: 0 <= t < |sel| && px[sel[t]][c] == a[c]
    {
      var t :| 0 <= t < |g| && g[t][c] == a[c];
      assert px[sel[t]][c] == a[c];
    }
  }

  /** `[np.max(array_pixels[:, 0]), np.max(array_pixels[:, 1]), np.max(array_pixels[:, 2])]`. */
  function PerChannelMax(px: seq<Pixel>): (a: Pixel)
    requires |px| > 0
    requires forall t :: 0 <= t < |px| ==> |px[t]| == Channels
    ensures |a| == Channels
    ensures forall c, t :: 0 <= c < Channels && 0 <= t < |px| ==> px[t][c] <= a[c]
    ensures forall c :: 0 <= c < Channels ==> exists t :: 0 <= t < |px| && px[t][c] == a[c]
  {
    [ChannelMax(px, 0), ChannelMax(px, 1), ChannelMax(px, 2)]
  }

  /** `atmosphere_light(im, dc, p)`, with `asc` the result of `onedc.argsort()`.
      The three channel maxima are taken one by one; with nothing selected the
      gathered array is one-dimensional and indexing its columns raises. */
  function AtmosphereLight(im: Image, dc: Map2, p: real, asc: seq<int>): (r: Result<Pixel>)
    requires IsImage(im) && SameExtent(im, dc)
    requires IsArgsort(FlatDark(dc), asc)
    ensures r.Err? <==> SelectedCount(|FlatDark(dc)|, p) == 0
    ensures r.Err? ==> r.error == TooManyIndices
    ensures r.Ok? ==> |FlatDark(dc)| == |FlatPixels(im)| &&
                      IsAirlightOf(FlatPixels(im), SelectionByReversal(FlatDark(dc), asc, p), r.value)
  {
    FlatExtent(im, dc);
    var sel := SelectionByReversal(FlatDark(dc), asc, p);
    var liste := Gather(FlatPixels(im), sel);
    if |liste| == 0 then Err(TooManyIndices)
    else
      ChannelMaximaAreAirlight(FlatPixels(im), sel);
      Ok(PerChannelMax(liste))
  }

  /** `get_atmosphere(I, darkch, p)`, with `desc` the result of
      `(-flatdark).argsort()`. The maximum is one reduction along axis 0; with
      nothing selected it reduces an empty array and raises. */
  function GetAtmosphere(im: Image, dc: Map2, p: real, desc: seq<int>): (r: Result<Pixel>)
    requires IsImage(im) && SameExtent(im, dc)
    requires IsArgsort(Negate(FlatDark(dc)), desc)
    ensures r.Err? <==> SelectedCount(|FlatDark(dc)|, p) == 0
    ensures r.Err? ==> r.error == EmptyMaximum
    ensures r.Ok? ==> |FlatDark(dc)| == |FlatPixels(im)| &&
                      IsAirlightOf(FlatPixels(im), SelectionByNegation(FlatDark(dc), desc, p), r.value)
  {
    FlatExtent(im, dc);
    var sel := SelectionByNegation(FlatDark(dc), desc, p);
    var taken := Gather(FlatPixels(im), sel);
    if |taken| == 0 then Err(EmptyMaximum)
    else
      ColumnMaxIsAirlight(FlatPixels(im), sel);
      Ok(ColumnMax(taken))
  }
}

=== FILE: airlight_facts.dfy ===
/** What the two atmospheric-light variants have in common: the airlight depends
    only on which pixels are selected, and without ties in the dark channel the
    selection itself is determined. */
module AirlightFacts {
  import opened Images
  import opened Airlight

  /** The set of entries of a sequence. */
  function Elements(s: seq<int>): set<int>
  {
    set x | x in s
  }

  /** The airlight of a selection depends only on the set of selected indices,
      not on their order. */
  lemma AirlightDeterminedBySet(px: seq<Pixel>, s1: seq<int>, s2: seq<int>, a: Pixel, b: Pixel)
    requires forall f :: 0 <= f < |px| ==> |px[f]| == Channels
    requires forall t :: 0 <= t < |s1| ==> 0 <= s1[t] < |px|
    requires forall t :: 0 <= t < |s2| ==> 0 <= s2[t] < |px|
    requires Elements(s1) == Elements(s2)
    requires IsAirlightOf(px, s1, a) && IsAirlightOf(px, s2, b)
    ensures a == b
  {
    forall c | 0 <= c < Channels
      ensures a[c] == b[c]
    {
      var t1 :| 0 <= t1 < |s1| && px[s1[t1]][c] == a[c];
      var t2 :| 0 <= t2 < |s2| && px[s2[t2]][c] == b[c];
      assert s1[t1] in Elements(s2);
      var u2 :| 0 <= u2 < |s2| && s2[u2] == s1[t1];
      assert s2[t2] in Elements(s1);
      var u1 :| 0 <= u1 < |s1| && s1[u1] == s2[t2];
      assert a[c] <= b[c] && b[c] <= a[c];
    }
  }

  /** For the same set of selected indices, `atmosphere_light` and `get_atmosphere`
      return the same airlight (or both raise). */
  lemma VariantsAgreeOnSameSelection(im: Image, dc: Map2, p: real, asc: seq<int>, desc: seq<int>)
    requires IsImage(im) && SameExtent(im, dc)
    requires IsArgsort(FlatDark(dc), asc) && IsArgsort(Negate(FlatDark(dc)), desc)
    requires Elements(SelectionByReversal(FlatDark(dc), asc, p))
             == Elements(SelectionByNegation(FlatDark(dc), desc, p))
    ensures AtmosphereLight(im, dc, p, asc).Ok? == GetAtmosphere(im, dc, p, desc).Ok?
    ensures AtmosphereLight(im, dc, p, asc).Ok? ==>
              AtmosphereLight(im, dc, p, asc).value == GetAtmosphere(im, dc, p, desc).value
  {
    var r1, r2 := AtmosphereLight(im, dc, p, asc), GetAtmosphere(im, dc, p, desc);
    if r1.Ok? {
      AirlightDeterminedBySet(FlatPixels(im), SelectionByReversal(FlatDark(dc), asc, p),
                              SelectionByNegation(FlatDark(dc), desc, p), r1.value, r2.value);
    }
  }

  /** A sequence without repeats has as many distinct entries as positions. */
  lemma {:induction false} DistinctCardinality(s: seq<int>)
    requires forall a, b :: 0 <= a < b < |s| ==> s[a] != s[b]
    ensures |Elements(s)| == |s|
  {
    if |s| > 0 {
      var init := s[..|s| - 1];
      DistinctCardinality(init);
      assert Elements(s) == Elements(init) + {s[|s| - 1]};
      assert s[|s| - 1] !in Elements(init);
    }
  }

  /** A set missing an element of a superset is smaller. */
  lemma ProperSubsetIsSmaller(a: set<int>, b: set<int>, z: int)
    requires a <= b && z in b && z !in a
    ensures |a| < |b|
  {
    assert b == a + (b - a);
    assert z in b - a;
  }

  /** Without ties, if a top selection leaves out an index that another top
      selection keeps, it keeps nothing the other leaves out, so it is smaller. */
  lemma MissingIndexShrinks(key: seq<int>, s1: seq<int>, s2: seq<int>, x: int)
    requires forall x, y :: 0 <= x < |key| && 0 <= y < |key| && x != y ==> key[x] != key[y]
    requires IsTopSelection(key, s1) && IsTopSelection(key, s2)
    requires x in s1 && x !in s2
    ensures |Elements(s2)| < |Elements(s1)|
  {
    var a :| 0 <= a < |s1| && s1[a] == x;
    forall y | y in Elements(s2)
      ensures y in Elements(s1)
    {
      var b :| 0 <= b < |s2| && s2[b] == y;
      assert key[x] <= key[s2[b]];
      assert y !in s1 ==> key[y] <= key[s1[a]];
    }
    ProperSubsetIsSmaller(Elements(s2), Elements(s1), x);
  }

  /** Without ties, a top selection of the same size keeps every index another keeps. */
  lemma SameSizeKeepsIndex(key: seq<int>, s1: seq<int>, s2: seq<int>, x: int)
    requires forall x, y :: 0 <= x < |key| && 0 <= y < |key| && x != y ==> key[x] != key[y]
    requires IsTopSelection(key, s1) && IsTopSelection(key, s2)
    requires |s1| == |s2|
    requires x in s1
    ensures x in s2
  {
    DistinctCardinality(s1);
    DistinctCardinality(s2);
    if x !in s2 {
      MissingIndexShrinks(key, s1, s2, x);
      assert false;
    }
  }

  /** When no two pixels share a dark-channel value, two top selections of the
      same size select the same indices. */
  lemma TopSelectionUniqueWithoutTies(key: seq<int>, s1: seq<int>, s2: seq<int>)
    requires forall x, y :: 0 <= x < |key| && 0 <= y < |key| && x != y ==> key[x] != key[y]
    requires IsTopSelection(key, s1) && IsTopSelection(key, s2)
    requires |s1| == |s2|
    ensures Elements(s1) == Elements(s2)
  {
    forall x | x in s1
      ensures x in s2
    {
      SameSizeKeepsIndex(key, s1, s2, x);
    }
    forall x | x in s2
      ensures x in s1
    {
      SameSizeKeepsIndex(key, s2, s1, x);
    }
  }

  /** Without ties in the dark channel both variants return the same airlight,
      whatever order numpy's sort puts the pixels in. */
  lemma VariantsAgreeWithoutTies(im: Image, dc: Map2, p: real, asc: seq<int>, desc: seq<int>)
    requires IsImage(im) && SameExtent(im, dc)
    requires IsArgsort(FlatDark(dc), asc) && IsArgsort(Negate(FlatDark(dc)), desc)
    requires forall x, y :: 0 <= x < |FlatDark(dc)| && 0 <= y < |FlatDark(dc)| && x != y ==>
               FlatDark(dc)[x] != FlatDark(dc)[y]
    ensures AtmosphereLight(im, dc, p, asc).Ok? == GetAtmosphere(im, dc, p, desc).Ok?
    ensures AtmosphereLight(im, dc, p, asc).Ok? ==>
              AtmosphereLight(im, dc, p, asc).value == GetAtmosphere(im, dc, p, desc).value
  {
    TopSelectionUniqueWithoutTies(FlatDark(dc), SelectionByReversal(FlatDark(dc), asc, p),
                                  SelectionByNegation(FlatDark(dc), desc, p));
    VariantsAgreeOnSameSelection(im, dc, p, asc, desc);
  }

  /** With `p = 1` the selection of `atmosphere_light` holds every flat index. */
  lemma FullSelectionHoldsAll(key: seq<int>, asc: seq<int>, f: int)
    requires IsArgsort(key, asc)
    requires 0 <= f < |key|
    ensures f in SelectionByReversal(key, asc, 1.0)
  {
    var sel := SelectionByReversal(key, asc, 1.0);
    assert sel == Reverse(asc);
    assert f in asc;
    var a :| 0 <= a < |asc| && asc[a] == f;
    assert sel[|asc| - 1 - a] == f;
  }

  /** With `p = 1` the selection of `get_atmosphere` holds every flat index. */
  lemma FullSelectionHoldsAllNeg(key: seq<int>, desc: seq<int>, f: int)
    requires IsArgsort(Negate(key), desc)
    requires 0 <= f < |key|
    ensures f in SelectionByNegation(key, desc, 1.0)
  {
    var sel := SelectionByNegation(key, desc, 1.0);
    assert sel == desc;
    assert f in desc;
  }

  /** The flat index of pixel (i, j), valid in both flattened arrays. */
  lemma FlatIndexOf(im: Image, dc: Map2, i: nat, j: nat) returns (f: nat)
    requires IsImage(im) && SameExtent(im, dc)
    requires i < |im| && j < Width(im)
    ensures f < |FlatDark(dc)| && f < |FlatPixels(im)|
    ensures FlatPixels(im)[f] == im[i][j]
  {
    FlatExtent(im, dc);
    ConcatIndex(im, Width(im), i, j);
    f := i * Width(im) + j;
  }

  /** The airlight of a selection holding every flat index bounds every sample of
      the image. */
  lemma CompleteSelectionBoundsAll(im: Image, dc: Map2, sel: seq<int>, a: Pixel)
    requires IsImage(im) && SameExtent(im, dc)
    requires forall t :: 0 <= t < |sel| ==> 0 <= sel[t] < |FlatPixels(im)|
    requires forall f :: 0 <= f < |FlatDark(dc)| ==> f in sel
    requires IsAirlightOf(FlatPixels(im), sel, a)
    ensures forall c, i, j :: 0 <= c < Channels && 0 <= i < |im| && 0 <= j < Width(im) ==> im[i][j][c] <= a[c]
  {
    var px := FlatPixels(im);
    forall c, i, j | 0 <= c < Channels && 0 <= i < |im| && 0 <= j < Width(im)
      ensures im[i][j][c] <= a[c]
    {
      var f := FlatIndexOf(im, dc, i, j);
      assert f in sel;
      var t :| 0 <= t < |sel| && sel[t] == f;
      assert px[sel[t]][c] <= a[c];
    }
  }

  /** Each channel of the airlight of a selection is a sample of the image. */
  lemma SelectionAirlightAttained(im: Image, sel: seq<int>, a: Pixel, c: nat) returns (i: nat, j: nat)
    requires IsImage(im)
    requires forall t :: 0 <= t < |sel| ==> 0 <= sel[t] < |FlatPixels(im)|
    requires IsAirlightOf(FlatPixels(im), sel, a)
    requires c < Channels
    ensures i < |im| && j < Width(im) && im[i][j][c] == a[c]
  {
    var px := FlatPixels(im);
    assert px == Concat(im);
    var t :| 0 <= t < |sel| && px[sel[t]][c] == a[c];
    i, j := ConcatCover(im, Width(im), sel[t]);
  }

  /** A non-empty image has a non-empty flattening, so `p = 1` selects something. */
  lemma NonEmptyFlat(im: Image, dc: Map2)
    requires IsImage(im) && SameExtent(im, dc)
    requires |im| > 0 && Width(im) > 0
    ensures SelectedCount(|FlatDark(dc)|, 1.0) > 0
  {
    FlatExtent(im, dc);
    assert |im| * Width(im) >= 1 by {
      assert |im| * Width(im) >= 1 * Width(im);
    }
  }

  /** With `p = 1` every pixel is selected, so on a non-empty image
      `atmosphere_light` returns, per channel, the largest sample of the whole image. */
  lemma FullSelectionIsGlobalMax(im: Image, dc: Map2, asc: seq<int>)
    requires IsImage(im) && SameExtent(im, dc)
    requires IsArgsort(FlatDark(dc), asc)
    requires |im| > 0 && Width(im) > 0
    ensures AtmosphereLight(im, dc, 1.0, asc).Ok?
    ensures forall c, i, j :: 0 <= c < Channels && 0 <= i < |im| && 0 <= j < Width(im) ==>
              im[i][j][c] <= AtmosphereLight(im, dc, 1.0, asc).value[c]
    ensures forall c :: 0 <= c < Channels ==>
              exists i, j :: 0 <= i < |im| && 0 <= j < Width(im) &&
                             im[i][j][c] == AtmosphereLight(im, dc, 1.0, asc).value[c]
  {
    NonEmptyFlat(im, dc);
    var key := FlatDark(dc);
    var a := AtmosphereLight(im, dc, 1.0, asc).value;
    var sel := SelectionByReversal(key, asc, 1.0);
    forall f | 0 <= f < |key|
      ensures f in sel
    {
      FullSelectionHoldsAll(key, asc, f);
    }
    CompleteSelectionBoundsAll(im, dc, sel, a);
    forall c | 0 <= c < Channels
      ensures exists i, j :: 0 <= i < |im| && 0 <= j < Width(im) && im[i][j][c] == a[c]
    {
      var i, j := SelectionAirlightAttained(im, sel, a, c);
    }
  }

  /** The same holds for `get_atmosphere`: with `p = 1` on a non-empty image it
      returns, per channel, the largest sample of the whole image. */
  lemma FullSelectionIsGlobalMaxNeg(im: Image, dc: Map2, desc: seq<int>)
    requires IsImage(im) && SameExtent(im, dc)
    requires IsArgsort(Negate(FlatDark(dc)), desc)
    requires |im| > 0 && Width(im) > 0
    ensures GetAtmosphere(im, dc, 1.0, desc).Ok?
    ensures forall c, i, j :: 0 <= c < Channels && 0 <= i < |im| && 0 <= j < Width(im) ==>
              im[i][j][c] <= GetAtmosphere(im, dc, 1.0, desc).value[c]
    ensures forall c :: 0 <= c < Channels ==>
              exists i, j :: 0 <= i < |im| && 0 <= j < Width(im) &&
                             im[i][j][c] == GetAtmosphere(im, dc, 1.0, desc).value[c]
  {
    NonEmptyFlat(im, dc);
    var key := FlatDark(dc);
    var a := GetAtmosphere(im, dc, 1.0, desc).value;
    var sel := SelectionByNegation(key, desc, 1.0);
    forall f | 0 <= f < |key|
      ensures f in sel
    {
      FullSelectionHoldsAllNeg(key, desc, f);
    }
    CompleteSelectionBoundsAll(im, dc, sel, a);
    forall c | 0 <= c < Channels
      ensures exists i, j :: 0 <= i < |im| && 0 <= j < Width(im) && im[i][j][c] == a[c]
    {
      var i, j := SelectionAirlightAttained(im, sel, a, c);
    }
  }
}

=== FILE: dark_channel.dfy ===
/** The dark channel: for each pixel, the smallest sample over all channels of a
    square window centred on it and clipped to the image. */
module DarkChannels {
  import opened Outcomes
  import opened Images

  /** A half-open index range `lo..hi` along one axis. */
  datatype Span = Span(lo: nat, hi: nat)
  {
    predicate IsEmpty() { hi <= lo }
  }

  /** The rows (or columns) the slice `[max(k - h, 0):min(k + h + 1, len)]` selects. */
  function SliceSpan(k: int, h: int, len: nat): (s: Span)
    ensures s.hi <= len
    ensures 0 <= k < len && h >= 0 ==> s.lo <= k < s.hi
    ensures 0 <= k < len && h < 0 && k + h + 1 >= 0 ==> s.IsEmpty()
  {
    Span(SliceBound(Max(k - h, 0), len), SliceBound(Min(k + h + 1, len), len))
  }

  /** The window of half-width `h >= 0` around `k`, clipped to `0..len`. */
  function ClippedSpan(k: int, h: nat, len: nat): (s: Span)
    requires 0 <= k < len
    ensures s.lo <= k < s.hi <= len
    ensures s.hi - s.lo <= 2 * h + 1
  {
    Span(Max(k - h, 0), Min(k + h + 1, len))
  }

  /** For a non-negative half-width the Python slice is exactly the clipped window. */
  lemma SliceSpanIsClipped(k: int, h: int, len: nat)
    requires 0 <= k < len && h >= 0
    ensures SliceSpan(k, h, len) == ClippedSpan(k, h, len)
    ensures !SliceSpan(k, h, len).IsEmpty()
  {
  }

  /** A negative half-width (a negative odd patch) leaves some row of a non-empty
      axis with an empty slice, whatever Python does with the negative bounds. */
  lemma NegativeHalfWidthEmptySpan(h: int, len: nat) returns (k: nat)
    requires h < 0 && len > 0
    ensures k < len
    ensures SliceSpan(k, h, len).IsEmpty()
  {
    if -h - 1 < len {
      k := -h - 1;
    } else {
      k := 0;
    }
  }

  /** `patch % 2 == 1` in Python: Dafny's `%` agrees with Python's on a positive modulus. */
  predicate IsOdd(patch: int) { patch % 2 == 1 }

  /** `int((patch - 1) / 2)` for an odd patch: the division is exact. */
  function HalfWidth(patch: int): (h: int)
    requires IsOdd(patch)
    ensures 2 * h + 1 == patch
  {
    (patch - 1) / 2
  }

  /** Smallest channel sample of one pixel. */
  function PixelMin(p: Pixel): int
    requires |p| > 0
  {
    if |p| == 1 then p[0] else Min(PixelMin(p[..|p| - 1]), p[|p| - 1])
  }

  /** `PixelMin` is at most every channel of the pixel. */
  lemma {:induction false} PixelMinIsLowerBound(p: Pixel)
    requires |p| > 0
    ensures forall ch :: 0 <= ch < |p| ==> PixelMin(p) <= p[ch]
  {
    if |p| > 1 {
      var init := p[..|p| - 1];
      PixelMinIsLowerBound(init);
      assert forall ch :: 0 <= ch < |init| ==> init[ch] == p[ch];
    }
  }

  /** `PixelMin` is one of the pixel's channels. */
  lemma {:induction false} PixelMinAttained(p: Pixel) returns (ch: nat)
    requires |p| > 0
    ensures ch < |p| && p[ch] == PixelMin(p)
  {
    if |p| == 1 {
      ch := 0;
    } else {
      var init := p[..|p| - 1];
      var ch' := PixelMinAttained(init);
      ch := if PixelMin(p) == PixelMin(init) then ch' else |p| - 1;
    }
  }

  /** `(r, c, ch)` is a sample position of `im` inside rows `rs` and columns `cs`. */
  ghost predicate InWindow(im: Image, rs: Span, cs: Span, r: int, c: int, ch: int)
    requires IsImage(im)
  {
    rs.lo <= r < rs.hi <= |im| && cs.lo <= c < cs.hi <= Width(im) && 0 <= ch < Channels
  }

  /** `m` is the minimum sample of the window: a lower bound of every sample in it,
      and equal to one of them. This is what `np.min` of the slice returns. */
  ghost predicate IsWindowMin(im: Image, rs: Span, cs: Span, m: int)
    requires IsImage(im)
  {
    && (forall r, c, ch :: InWindow(im, rs, cs, r, c, ch) ==> m <= im[r][c][ch])
    && (exists r, c, ch :: InWindow(im, rs, cs, r, c, ch) && im[r][c][ch] == m)
  }

  /** Smallest sample among the pixels `row[cs.lo..cs.hi]`, reduced one pixel at a time. */
  function RowMin(row: seq<Pixel>, cs: Span): int
    requires cs.lo < cs.hi <= |row|
    requires forall c :: 0 <= c < |row| ==> |row[c]| == Channels
    decreases cs.hi - cs.lo
  {
    var last := PixelMin(row[cs.hi - 1]);
    if cs.hi - cs.lo == 1 then last
    else Min(RowMin(row, Span(cs.lo, cs.hi - 1)), last)
  }

  /** `RowMin` is at most every sample of the pixels in range. */
  lemma {:induction false} RowMinIsLowerBound(row: seq<Pixel>, cs: Span)
    requires cs.lo < cs.hi <= |row|
    requires forall c :: 0 <= c < |row| ==> |row[c]| == Channels
    ensures forall c, ch :: cs.lo <= c < cs.hi && 0 <= ch < Channels ==> RowMin(row, cs) <= row[c][ch]
    decreases cs.hi - cs.lo
  {
    PixelMinIsLowerBound(row[cs.hi - 1]);
    if cs.hi - cs.lo > 1 {
      RowMinIsLowerBound(row, Span(cs.lo, cs.hi - 1));
    }
  }

  /** `RowMin` is one of the samples of the pixels in range. */
  lemma {:induction false} RowMinAttained(row: seq<Pixel>, cs: Span) returns (c: nat, ch: nat)
    requires cs.lo < cs.hi <= |row|
    requires forall c :: 0 <= c < |row| ==> |row[c]| == Channels
    ensures cs.lo <= c < cs.hi && ch < Channels && row[c][ch] == RowMin(row, cs)
    decreases cs.hi - cs.lo
  {
    var last := cs.hi - 1;
    var lastCh := PixelMinAttained(row[last]);
    if cs.hi - cs.lo == 1 || RowMin(row, cs) == PixelMin(row[last]) {
      c, ch := last, lastCh;
    } else {
      c, ch := RowMinAttained(row, Span(cs.lo, last));
    }
  }

  /** Smallest sample of the window `im[rs.lo..rs.hi][cs.lo..cs.hi][*]`, reduced one
      row at a time. */
  function WindowMin(im: Image, rs: Span, cs: Span): int
    requires IsImage(im)
    requires rs.lo < rs.hi <= |im| && cs.lo < cs.hi <= Width(im)
    decreases rs.hi - rs.lo
  {
    var last := RowMin(im[rs.hi - 1], cs);
    if rs.hi - rs.lo == 1 then last
    else Min(WindowMin(im, Span(rs.lo, rs.hi - 1), cs), last)
  }

  /** `WindowMin` is at most the minimum of every row of the window. */
  lemma {:induction false} WindowMinBelowRows(im: Image, rs: Span, cs: Span, r: int)
    requires IsImage(im)
    requires rs.lo < rs.hi <= |im| && cs.lo < cs.hi <= Width(im)
    requires rs.lo <= r < rs.hi
    ensures WindowMin(im, rs, cs) <= RowMin(im[r], cs)
    decreases rs.hi - rs.lo
  {
    if r < rs.hi - 1 {
      WindowMinBelowRows(im, Span(rs.lo, rs.hi - 1), cs, r);
    }
  }

  /** `WindowMin` is at most every sample of the window. */
  lemma WindowMinIsLowerBound(im: Image, rs: Span, cs: Span)
    requires IsImage(im)
    requires rs.lo < rs.hi <= |im| && cs.lo < cs.hi <= Width(im)
    ensures forall r, c, ch :: InWindow(im, rs, cs, r, c, ch) ==> WindowMin(im, rs, cs) <= im[r][c][ch]
  {
    forall r, c, ch | InWindow(im, rs, cs, r, c, ch)
      ensures WindowMin(im, rs, cs) <= im[r][c][ch]
    {
      WindowMinBelowRows(im, rs, cs, r);
      RowMinIsLowerBound(im[r], cs);
    }
  }

  /** `WindowMin` is one of the samples of the window. */
  lemma {:induction false} WindowMinAttained(im: Image, rs: Span, cs: Span) returns (r: nat, c: nat, ch: nat)
    requires IsImage(im)
    requires rs.lo < rs.hi <= |im| && cs.lo < cs.hi <= Width(im)
    ensures InWindow(im, rs, cs, r, c, ch) && im[r][c][ch] == WindowMin(im, rs, cs)
    decreases rs.hi - rs.lo
  {
    var last := rs.hi - 1;
    var lc, lch := RowMinAttained(im[last], cs);
    if rs.hi - rs.lo == 1 || WindowMin(im, rs, cs) == RowMin(im[last], cs) {
      r, c, ch := last, lc, lch;
    } else {
      r, c, ch := WindowMinAttained(im, Span(rs.lo, last), cs);
    }
  }

  /** The row-by-row reduction is `np.min` of the window: a lower bound of every
      sample in it, and equal to one of them. */
  lemma WindowMinIsMin(im: Image, rs: Span, cs: Span)
    requires IsImage(im)
    requires rs.lo < rs.hi <= |im| && cs.lo < cs.hi <= Width(im)
    ensures IsWindowMin(im, rs, cs, WindowMin(im, rs, cs))
  {
    WindowMinIsLowerBound(im, rs, cs);
    var r, c, ch := WindowMinAttained(im, rs, cs);
  }

  /** A patch size `dark_channel` accepts and can compute on every image. */
  predicate ValidPatch(patch: int) { patch > 0 && IsOdd(patch) }

  /** The clipped window of pixel (i, j) for a valid patch. */
  function RowWindow(im: Image, patch: int, i: int): (s: Span)
    requires ValidPatch(patch) && 0 <= i < |im|
  {
    ClippedSpan(i, HalfWidth(patch), |im|)
  }

  function ColumnWindow(im: Image, patch: int, j: int): (s: Span)
    requires ValidPatch(patch) && 0 <= j < Width(im)
  {
    ClippedSpan(j, HalfWidth(patch), Width(im))
  }

  /** The dark channel defined pointwise: entry (i, j) is the minimum sample over the
      clipped window of half-width (patch - 1) / 2 around (i, j). */
  function DarkChannelOf(im: Image, patch: int): (dc: Map2)
    requires IsImage(im) && ValidPatch(patch)
    ensures SameExtent(im, dc)
  {
    seq(|im|, i requires 0 <= i < |im| =>
      seq(Width(im), j requires 0 <= j < Width(im) =>
        WindowMin(im, RowWindow(im, patch, i), ColumnWindow(im, patch, j))))
  }

  /** Each entry of the pointwise dark channel is the minimum sample of its
      clipped window. */
  lemma DarkChannelEntry(im: Image, patch: int, i: nat, j: nat)
    requires IsImage(im) && ValidPatch(patch)
    requires i < |im| && j < Width(im)
    ensures IsWindowMin(im, RowWindow(im, patch, i), ColumnWindow(im, patch, j), DarkChannelOf(im, patch)[i][j])
  {
    WindowMinIsMin(im, RowWindow(im, patch, i), ColumnWindow(im, patch, j));
  }

  /** The row (or column) slices of every position along an axis of length `len`. */
  function SliceSpans(h: int, len: nat): seq<Span>
  {
    seq(len, k requires 0 <= k < len => SliceSpan(k, h, len))
  }

  /** Every span of `spans` ends within an axis of length `len`. */
  predicate SpansWithin(spans: seq<Span>, len: nat)
  {
    forall k :: 0 <= k < |spans| ==> spans[k].hi <= len
  }

  /** Every window built from a row slice of `rows` and a column slice of `cols` is
      non-empty, so `np.min` succeeds on each. */
  predicate AllNonEmpty(rows: seq<Span>, cols: seq<Span>)
  {
    |rows| > 0 && |cols| > 0 ==>
      (forall i :: 0 <= i < |rows| ==> !rows[i].IsEmpty()) && (forall j :: 0 <= j < |cols| ==> !cols[j].IsEmpty())
  }

  /** `dc` holds `rows[..n]` by `cols` window minima. */
  ghost predicate RowsFilled(im: Image, rows: seq<Span>, cols: seq<Span>, dc: Map2, n: nat)
    requires IsImage(im) && SpansWithin(rows, |im|) && SpansWithin(cols, Width(im))
    requires n <= |rows|
  {
    && |dc| == n
    && (forall i :: 0 <= i < n ==> |dc[i]| == |cols|)
    && (n > 0 && |cols| > 0 ==>
          (forall i :: 0 <= i < n ==> !rows[i].IsEmpty()) && (forall j :: 0 <= j < |cols| ==> !cols[j].IsEmpty()))
    && (forall i, j :: 0 <= i < n && 0 <= j < |cols| ==> dc[i][j] == WindowMin(im, rows[i], cols[j]))
  }

  /** One row of minima: over rows `rs` and each column slice of `cols`, or
      `ok == false` when one of those slices is empty. */
  method DarkChannelRow(im: Image, rs: Span, cols: seq<Span>) returns (row: seq<int>, ok: bool)
    requires IsImage(im) && rs.hi <= |im| && SpansWithin(cols, Width(im))
    ensures ok <==> (|cols| > 0 ==> !rs.IsEmpty() && forall j :: 0 <= j < |cols| ==> !cols[j].IsEmpty())
    ensures ok ==> |row| == |cols|
    ensures ok ==> forall j :: 0 <= j < |cols| ==> row[j] == WindowMin(im, rs, cols[j])
  {
    row := [];
    var j := 0;
    while j < |cols|
      invariant 0 <= j <= |cols|
      invariant |row| == j
      invariant j > 0 ==> !rs.IsEmpty()
      invariant forall j' :: 0 <= j' < j ==> !cols[j'].IsEmpty()
      invariant forall j' :: 0 <= j' < j ==> row[j'] == WindowMin(im, rs, cols[j'])
    {
      if rs.IsEmpty() || cols[j].IsEmpty() {
        return row, false;
      }
      var m := WindowMin(im, rs, cols[j]);
      assert forall j' :: 0 <= j' < j ==> (row + [m])[j'] == row[j'];
      row := row + [m];
      j := j + 1;
    }
    ok := true;
  }

  /** The nested loops of the source: the minimum of every window, row by row, or
      `ok == false` when one of the windows is empty. */
  method WindowMins(im: Image, rows: seq<Span>, cols: seq<Span>) returns (dc: Map2, ok: bool)
    requires IsImage(im) && SpansWithin(rows, |im|) && SpansWithin(cols, Width(im))
    ensures ok <==> AllNonEmpty(rows, cols)
    ensures ok ==> RowsFilled(im, rows, cols, dc, |rows|)
  {
    dc := [];
    var i := 0;
    while i < |rows|
      invariant 0 <= i <= |rows|
      invariant RowsFilled(im, rows, cols, dc, i)
    {
      var row, rowOk := DarkChannelRow(im, rows[i], cols);
      if !rowOk {
        return dc, false;
      }
      assert forall i' :: 0 <= i' < i ==> (dc + [row])[i'] == dc[i'];
      assert (dc + [row])[i] == row;
      dc := dc + [row];
      i := i + 1;
    }
    ok := true;
  }

  /** For a valid patch the slices are the clipped windows, so the minima the loops
      compute form the pointwise dark channel. */
  lemma FilledIsDarkChannel(im: Image, patch: int, dc: Map2)
    requires IsImage(im) && ValidPatch(patch)
    requires RowsFilled(im, SliceSpans(HalfWidth(patch), |im|), SliceSpans(HalfWidth(patch), Width(im)), dc, |im|)
    ensures dc == DarkChannelOf(im, patch)
  {
    var h, M, N := HalfWidth(patch), |im|, Width(im);
    var rows, cols := SliceSpans(h, M), SliceSpans(h, N);
    forall i | 0 <= i < M
      ensures dc[i] == DarkChannelOf(im, patch)[i]
    {
      SliceSpanIsClipped(i, h, M);
      assert rows[i] == RowWindow(im, patch, i);
      forall j | 0 <= j < N
        ensures dc[i][j] == DarkChannelOf(im, patch)[i][j]
      {
        SliceSpanIsClipped(j, h, N);
        assert cols[j] == ColumnWindow(im, patch, j);
      }
    }
  }

  /** With a non-negative half-width every row and column slice is non-empty. */
  lemma ValidPatchSlicesNonEmpty(h: int, M: nat, N: nat)
    requires h >= 0
    ensures AllNonEmpty(SliceSpans(h, M), SliceSpans(h, N))
  {
    forall i, j | 0 <= i < M && 0 <= j < N
      ensures !SliceSpans(h, M)[i].IsEmpty() && !SliceSpans(h, N)[j].IsEmpty()
    {
      SliceSpanIsClipped(i, h, M);
      SliceSpanIsClipped(j, h, N);
    }
  }

  /** With a negative half-width some window of a non-empty image is empty. */
  lemma NegativeHalfWidthSlices(h: int, M: nat, N: nat)
    requires h < 0 && M > 0 && N > 0
    ensures !AllNonEmpty(SliceSpans(h, M), SliceSpans(h, N))
  {
    var k := NegativeHalfWidthEmptySpan(h, M);
    assert SliceSpans(h, M)[k].IsEmpty();
  }

  /** The dark channel as the source computes it: reject an even patch, then fill an
      M by N map row by row, each entry `np.min` of the window slice. A negative odd
      patch passes the parity test; its slices then run into an empty one, and
      `np.min` of it raises. */
  method DarkChannel(im: Image, patch: int) returns (r: Result<Map2>)
    requires IsImage(im)
    ensures r == Err(EvenPatch) <==> !IsOdd(patch)
    ensures r == Err(EmptyMinimum) <==> IsOdd(patch) && patch < 0 && |im| > 0 && Width(im) > 0
    ensures r.Ok? <==> IsOdd(patch) && !(patch < 0 && |im| > 0 && Width(im) > 0)
    ensures r.Ok? ==> SameExtent(im, r.value)
    ensures r.Ok? && ValidPatch(patch) ==> r.value == DarkChannelOf(im, patch)
  {
    if patch % 2 == 0 {
      return Err(EvenPatch);
    }
    var M, N := |im|, Width(im);
    var h := HalfWidth(patch);
    var rows, cols := SliceSpans(h, M), SliceSpans(h, N);
    var dc, ok := WindowMins(im, rows, cols);
    if !ok {
      if h >= 0 {
        ValidPatchSlicesNonEmpty(h, M, N);
        assert false;
      }
      return Err(EmptyMinimum);
    }
    if h < 0 && M > 0 && N > 0 {
      NegativeHalfWidthSlices(h, M, N);
      assert false;
    }
    if patch > 0 {
      FilledIsDarkChannel(im, patch, dc);
    }
    return Ok(dc);
  }
}

=== FILE: dark_channel_facts.dfy ===
/** Properties of the dark channel that follow from its window-minimum definition. */
module DarkChannelFacts {
  import opened Images
  import opened DarkChannels

  /** The smallest sample of the whole image. */
  function GlobalMin(im: Image): int
    requires IsImage(im) && |im| > 0 && Width(im) > 0
  {
    WindowMin(im, Span(0, |im|), Span(0, Width(im)))
  }

  /** Each dark-channel entry is at most every channel of its own pixel (the centre
      is always in its window), at least the global minimum sample, and equal to
      some sample inside its window. */
  lemma DarkChannelBounds(im: Image, patch: int, i: nat, j: nat)
    requires IsImage(im) && ValidPatch(patch)
    requires i < |im| && j < Width(im)
    ensures forall ch :: 0 <= ch < Channels ==> DarkChannelOf(im, patch)[i][j] <= im[i][j][ch]
    ensures GlobalMin(im) <= DarkChannelOf(im, patch)[i][j]
    ensures exists r, c, ch :: InWindow(im, RowWindow(im, patch, i), ColumnWindow(im, patch, j), r, c, ch)
                               && im[r][c][ch] == DarkChannelOf(im, patch)[i][j]
  {
    var rs, cs := RowWindow(im, patch, i), ColumnWindow(im, patch, j);
    var v := DarkChannelOf(im, patch)[i][j];
    DarkChannelEntry(im, patch, i, j);
    WindowMinIsMin(im, Span(0, |im|), Span(0, Width(im)));
    forall ch | 0 <= ch < Channels
      ensures v <= im[i][j][ch]
    {
      assert InWindow(im, rs, cs, i, j, ch);
    }
    var r, c, ch :| InWindow(im, rs, cs, r, c, ch) && im[r][c][ch] == v;
    assert InWindow(im, Span(0, |im|), Span(0, Width(im)), r, c, ch);
  }

  /** The minimum over a one-pixel window is that pixel's channel minimum. */
  lemma SinglePixelWindow(im: Image, i: nat, j: nat, v: int)
    requires IsImage(im) && i < |im| && j < Width(im)
    requires IsWindowMin(im, Span(i, i + 1), Span(j, j + 1), v)
    ensures v == PixelMin(im[i][j])
  {
    var pm := PixelMin(im[i][j]);
    PixelMinIsLowerBound(im[i][j]);
    var ch0 := PixelMinAttained(im[i][j]);
    assert InWindow(im, Span(i, i + 1), Span(j, j + 1), i, j, ch0);
    var r, c, ch :| InWindow(im, Span(i, i + 1), Span(j, j + 1), r, c, ch) && im[r][c][ch] == v;
    assert r == i && c == j;
  }

  /** With patch 1 the window is the pixel itself: the dark channel is the
      per-pixel minimum over the channels. */
  lemma PatchOneIsPixelMin(im: Image, i: nat, j: nat)
    requires IsImage(im)
    requires i < |im| && j < Width(im)
    ensures DarkChannelOf(im, 1)[i][j] == PixelMin(im[i][j])
  {
    assert HalfWidth(1) == 0;
    assert RowWindow(im, 1, i) == Span(i, i + 1);
    assert ColumnWindow(im, 1, j) == Span(j, j + 1);
    DarkChannelEntry(im, 1, i, j);
    SinglePixelWindow(im, i, j, DarkChannelOf(im, 1)[i][j]);
  }

  /** Clipped windows of a larger patch contain those of a smaller one, so growing
      an odd patch never raises a dark-channel entry. */
  lemma LargerPatchIsDarker(im: Image, small: int, large: int, i: nat, j: nat)
    requires IsImage(im) && ValidPatch(small) && ValidPatch(large) && small <= large
    requires i < |im| && j < Width(im)
    ensures DarkChannelOf(im, large)[i][j] <= DarkChannelOf(im, small)[i][j]
  {
    var rs, cs := RowWindow(im, small, i), ColumnWindow(im, small, j);
    var rl, cl := RowWindow(im, large, i), ColumnWindow(im, large, j);
    assert rl.lo <= rs.lo && rs.hi <= rl.hi && cl.lo <= cs.lo && cs.hi <= cl.hi;
    var v := DarkChannelOf(im, small)[i][j];
    DarkChannelEntry(im, small, i, j);
    DarkChannelEntry(im, large, i, j);
    var r, c, ch :| InWindow(im, rs, cs, r, c, ch) && im[r][c][ch] == v;
    assert InWindow(im, rl, cl, r, c, ch);
  }
}

=== FILE: images.dfy ===
/** Images, two-dimensional maps and the row-major flattening numpy applies to them. */
module Images {

  /** One pixel: its channel samples (three of them in a well-formed image). */
  type Pixel = seq<int>

  /** An image of shape (height, width, channels), indexed `im[row][column][channel]`. */
  type Image = seq<seq<Pixel>>

  /** A single-channel map of shape (height, width), such as a dark channel. */
  type Map2 = seq<seq<int>>

  const Channels: nat := 3

  function Min(a: int, b: int): int { if a <= b then a else b }

  function Max(a: int, b: int): int { if a >= b then a else b }

  /** The position a Python slice bound `x` denotes in a sequence of length `len`:
      negative bounds count from the end, and bounds are clamped to `0..len`. */
  function SliceBound(x: int, len: nat): (b: nat)
    ensures b <= len
    ensures 0 <= x <= len ==> b == x
  {
    if x < 0 then (if x + len < 0 then 0 else x + len)
    else if x > len then len
    else x
  }

  /** Width of a rectangular two-level sequence (0 when it has no rows). */
  function Width<T>(rows: seq<seq<T>>): nat
  {
    if |rows| == 0 then 0 else |rows[0]|
  }

  /** Every row has `n` entries. */
  predicate IsRect<T>(rows: seq<seq<T>>, n: nat)
  {
    forall i :: 0 <= i < |rows| ==> |rows[i]| == n
  }

  /** A dense (height, width, 3) array. */
  predicate IsImage(im: Image)
  {
    && IsRect(im, Width(im))
    && forall i, j :: 0 <= i < |im| && 0 <= j < |im[i]| ==> |im[i][j]| == Channels
  }

  /** `dc` has the spatial extent of `im`. */
  predicate SameExtent(im: Image, dc: Map2)
  {
    |dc| == |im| && forall i :: 0 <= i < |im| ==> |dc[i]| == |im[i]|
  }

  /** Row-major flattening: numpy's `flatten`, `ravel` and `reshape(M * N, ...)`. */
  function Concat<T>(rows: seq<seq<T>>): seq<T>
  {
    if |rows| == 0 then [] else rows[0] + Concat(rows[1..])
  }

  /** The flat index of entry (i, j) of an `m` by `n` array is `i * n + j`, and the
      flattening holds exactly `m * n` entries. */
  lemma {:induction false} ConcatIndex<T>(rows: seq<seq<T>>, n: nat, i: nat, j: nat)
    requires IsRect(rows, n)
    requires i < |rows| && j < n
    ensures |Concat(rows)| == |rows| * n
    ensures i * n + j < |Concat(rows)|
    ensures Concat(rows)[i * n + j] == rows[i][j]
  {
    ConcatLength(rows, n);
    if i > 0 {
      assert IsRect(rows[1..], n);
      ConcatIndex(rows[1..], n, i - 1, j);
      assert i * n + j == n + ((i - 1) * n + j);
    }
  }

  lemma {:induction false} ConcatLength<T>(rows: seq<seq<T>>, n: nat)
    requires IsRect(rows, n)
    ensures |Concat(rows)| == |rows| * n
  {
    if |rows| > 0 {
      assert IsRect(rows[1..], n);
      ConcatLength(rows[1..], n);
    }
  }

  /** Every flat index comes from some entry (i, j). */
  lemma {:induction false} ConcatCover<T>(rows: seq<seq<T>>, n: nat, f: nat) returns (i: nat, j: nat)
    requires IsRect(rows, n)
    requires f < |Concat(rows)|
    ensures i < |rows| && j < n
    ensures Concat(rows)[f] == rows[i][j]
  {
    ConcatLength(rows, n);
    assert |rows| > 0;
    if f < n {
      i, j := 0, f;
    } else {
      assert IsRect(rows[1..], n);
      var i', j' := ConcatCover(rows[1..], n, f - n);
      i, j := i' + 1, j';
    }
  }
}

=== FILE: outcomes.dfy ===
/** The ways the dehazing core can fail. The source raises Python exceptions;
    each constructor names the exception and the place it comes from. */
module Outcomes {

  datatype Error =
    /** `ValueError` raised explicitly by `dark_channel` when the patch is even. */
    | EvenPatch
    /** `ValueError` from `np.min` on an empty window slice in `dark_channel`. */
    | EmptyMinimum
    /** `IndexError` from `array_pixels[:, 0]` in `atmosphere_light` when no pixel
        was selected (the array is then one-dimensional and empty). */
    | TooManyIndices
    /** `ValueError` from `np.max` on a zero-size array in `get_atmosphere`. */
    | EmptyMaximum

  /** Either the value a stage returns or the exception it raises. */
  datatype Result<T> = Ok(value: T) | Err(error: Error)
}
